=== FILE: README.md ===
# plastic-automate: the convergence loop, modelled in Dafny

`plastic-automate` is a small command-line tool that keeps a Plastic SCM
workspace clean by driving the `cm` client. `ensure` asks `cm status --xml
--fullpath` for the pending changes and runs `cm undo <path>` on each of
them, over and over, until a status lists no change. `update` does that,
then runs `cm update --last --override --forced`, then does it again. Every
failure to spawn `cm`, and every status output that does not deserialise,
aborts the program.

This project models that core (`src/main.rs`) and proves what it promises:

- `status.dfy` (module `Status`) holds the records `Change`, `Changes` and
  `StatusOutput`. It also holds `Describe`, the one-line description of a
  change, and the shape of the XML document with its decoding `Decode`.
  Every field is serde-`default`, so an absent element decodes to an empty
  list or an empty string.
- `cm.dfy` (module `CmClient`) holds the `cm` invocations (`Call`) and the
  two ways the program aborts (`Error`). It also holds `Client`, a scripted
  stand-in for `cm`:
  - `statuses` is what each coming `cm status` decodes to;
  - `calls` logs every invocation attempted;
  - `unlaunchable` names the invocations whose process cannot be spawned.

  `ClientState` is the observable part of the client as a value.
- `convergence.dfy` (module `Convergence`) holds `cleanup`, one pass of the
  `ensure_clean` loop, `ensure_clean` itself and `update`, each in two forms:
  - imperative methods over the `Client`;
  - functions from the client state before to the client state after, plus
    an outcome (`CleanupRun`, `EnsurePass`, `EnsureRun`, `UpdateRun`).

  Each method's contract ties its effect to the matching function.
  `verbose` and `log` are parameters of the methods only. No function
  takes them, so, as long as printing succeeds, the calls made and the
  outcome do not depend on them.
- `properties.dfy` (module `ConvergenceProperties`) proves the promises of
  the loop and of `update` about those functions.

A `<Change>` without `<Path>` decodes to an empty path (serde `default`,
src/main.rs:19-20), so the program would run `cm undo ""`. `DecodeChange`
does the same: it reads an absent field as `""`.

An undo or an update aborts only when `cm` cannot be spawned or its output
cannot be captured, because the code calls `.output()` and never looks at
the exit status. The model folds both into one "not launched" condition:
`Client.Undo` and `Client.UpdateLatest` succeed exactly when the call
launched.

## Model

| member | source | states |
|---|---|---|
| Status.DescribeLayout | src/main.rs:25-29 | the description of a change is "File `", the path, "` of size: ", the size, in that order and nothing else |
| Status.DescribeInjective | src/main.rs:25-29 | two changes whose paths hold no backtick and whose descriptions are equal are the same change |
| Status.Decode | src/main.rs:164-166 | deserialising fails exactly on a malformed output, and the failure carries the output's text |
| Status.DecodeKeepsEntries | src/main.rs:5-23 | a well-formed document always decodes, into one change per `<Change>` element, in document order; an absent `<Path>` or `<PrintableSize>` reads as "" |
| Status.AbsentChangesDecodeEmpty | src/main.rs:5-15 | a document without `<Changes>`, or whose `<Changes>` has no `<Change>`, decodes to an empty change list |
| CmClient.LaunchedQueryDecodes | src/main.rs:151-166 | a launched status query over a printed document fails iff the document is malformed, with `Undecodable` carrying its text; otherwise it yields one change per `<Change>` element, in document order |
| CmClient.Client.GetStatus | src/main.rs:147-167 | `get_status` logs one status query and consumes the next scripted output only when it launched; it fails with `NotLaunched` naming the query when it cannot be spawned, otherwise as `LaunchedQueryDecodes` says |
| CmClient.Client.Undo | src/main.rs:178-194 | `undo` logs one `cm undo` carrying the change's path, consumes no status, and succeeds iff the call launched, failing with `NotLaunched` naming it otherwise, whatever the exit code |
| CmClient.Client.UpdateLatest | src/main.rs:196-216 | `update_latest` logs one `cm update`, consumes no status, and succeeds iff the call launched, failing with `NotLaunched` naming it otherwise, whatever the exit code |
| Convergence.CleanupRun | src/main.rs:169-176 | `cleanup` never consumes a status output |
| Convergence.CleanupUndoesInOrder | src/main.rs:169-176 | `cleanup` issues `cm undo` for the changes in their order, each with its own path, none skipped or repeated; it undoes all of them iff every undo launches, otherwise it stops at the first that cannot and fails naming it |
| Convergence.CleanupAllLaunched | src/main.rs:173-175 | when every undo launches, `cleanup` appends exactly one undo per change, in order, and succeeds |
| Convergence.Cleanup | src/main.rs:169-176 | the `for` loop leaves the client in the state `CleanupRun` gives and returns its result |
| Convergence.EnsurePass | src/main.rs:133-143 | a pass never adds status outputs, and one that does not stop the loop consumes one, so the loop makes progress through the script |
| Convergence.PassAfterSweep | src/main.rs:133-143 | a pass over a non-empty status whose calls all launch is one query, then one undo per listed change in order, and goes round again |
| Convergence.QueryAndUndo | src/main.rs:133-143 | one loop body leaves the client in the state `EnsurePass` gives and reports whether, and how, it ends the loop |
| Convergence.EnsureRun | src/main.rs:132-144 | a run of the loop never adds status outputs, and one that ends clean consumed at least one (the query that saw no change); `CleanOnlyAfterEmptyStatus`, `RunFollows`, `LaunchFailureEndsRun` and `ConvergesAfterRounds` state the rest |
| Convergence.EnsureClean | src/main.rs:128-145 | the `loop` leaves the client in the state `EnsureRun` gives and returns its outcome; while printing succeeds, neither depends on `verbose` or `log` |
| Convergence.UpdateRun | src/main.rs:122-126 | `update` never adds status outputs, and one that ends clean consumed at least two, one per convergence; `UpdateRunCalls`, `UpdateAfterFixpoint` and `UpdateScenario` state the rest |
| Convergence.Update | src/main.rs:122-126 | `update` leaves the client in the state `UpdateRun` gives (converge, update, converge) and returns its outcome; while printing succeeds, neither depends on `verbose` or `log` |
| ConvergenceProperties.PassFollows | src/main.rs:132-144 | one pass only appends to the call log and consumes at most the first status output |
| ConvergenceProperties.PassStaysInDir | src/main.rs:132-144 | every call of a pass is a status query or an undo, run in the workspace directory |
| ConvergenceProperties.PassLaunches | src/main.rs:132-144 | a pass stopped by a call that cannot be spawned stops right after that call, the first such; any other pass launched every call it made |
| ConvergenceProperties.PassReads | src/main.rs:133-136 | a pass ends clean only on a launched query whose status lists nothing, and ends undecodable only on a launched query whose output is malformed; in both cases it consumed exactly that output; a pass that goes again consumed exactly one |
| ConvergenceProperties.CleanWorkspaceOneQuery | src/main.rs:132-136 | on a clean workspace `ensure_clean` makes one status query, no undo, and ends clean |
| ConvergenceProperties.UnlaunchableQueryEndsRun | src/main.rs:151-157 | a status query that cannot be spawned ends the run with `NotLaunched` naming it, as the last call, whatever readings remain (none included) |
| ConvergenceProperties.RunFollows | src/main.rs:132-144 | a run only appends to the call log and consumes status outputs from the front, each at most once |
| ConvergenceProperties.CleanOnlyAfterEmptyStatus | src/main.rs:132-136 | the fixpoint holds on exit: a run ends clean only right after a launched status query whose output listed no change, the last output it consumed |
| ConvergenceProperties.UndecodableStatusEndsRun | src/main.rs:164-166 | an undecodable status ends the run at that query, which launched and is the last call made, and the failure carries the text the query printed |
| ConvergenceProperties.LaunchFailureEndsRun | src/main.rs:151-187 | a failure to spawn a status query or an undo ends the run at that call, the first unlaunchable one and the last call made; any other run launched all its calls |
| ConvergenceProperties.ConvergesAfterRounds | src/main.rs:132-144 | K non-empty statuses then an empty one, every call launching: the run is query, undo each listed change in order, ..., final query; it ends clean after K + 1 outputs |
| ConvergenceProperties.RoundCallsCount | src/main.rs:132-144 | that run makes K + 1 queries and exactly as many undos as the K statuses list changes (their total), with their paths in order |
| ConvergenceProperties.EnsureCallsStayInDir | src/main.rs:128-145 | `ensure_clean` never calls `cm update`, and every call it makes runs in the workspace directory |
| ConvergenceProperties.OneDirtyFile | src/main.rs:128-145 | one dirty file then a clean output: query, undo of that file's path, query; clean, script used up |
| ConvergenceProperties.UpdateRunCalls | src/main.rs:122-126 | `update` is its first `ensure_clean` run unchanged when that run does not end clean; otherwise that run, then one `cm update`, then calls none of which is an update |
| ConvergenceProperties.UpdateAfterFixpoint | src/main.rs:122-126 | `cm update` is called iff the first `ensure_clean` ended clean, only right after it, once, and right after a status query |
| ConvergenceProperties.UpdateScenario | src/main.rs:122-126 | clean, then M changes after the update, then clean: query, update, query, M undos, query; it ends clean |

## Left out

- Argument parsing (`clap`), the `current_dir` fallback for `--working-dir` and the final "* Done!" line of `main`. They sit outside the loop; the working directory is a parameter.
- All printing under `verbose` and `log`: the progress lines, the change descriptions and the captured stdout/stderr. `Describe` models the text of a description, but nothing prints it. In the real program a failed write to stdout panics, so the calls made are independent of the flags only while printing succeeds.
- Reading XML text. The model starts from the document's element shape (`Document.Xml`). Any output the deserialiser rejects is `Document.Malformed`, kept verbatim. The lossy UTF-8 conversion of stdout is not modelled.
- What `cm undo` and `cm update` do to the workspace. Their effect shows only through the statuses the script holds for the next queries.
- The exit status and stderr of every `cm` call, which the source ignores as well.
- Convergence.EnsureClean: it does not model a loop that never ends. A run is bounded by the scripted status outputs; when they run out before a clean status and the next query would launch, the outcome is `OutOfScript`, where the real program would keep querying. A next query that cannot be spawned fails with `NotLaunched` whether or not readings remain.
- Aborting the process. Each `.expect` panic becomes a `Failed` outcome that ends the run with no further call, which is what the panic does to the calls made.

=== FILE: cm.dfy ===
/**
 * The external `cm` client, seen from the program: three kinds of invocation,
 * each run in the workspace's directory. Here it is a scripted stand-in that
 * records every invocation the program attempts.
 */
module CmClient {
  import opened Wrappers
  import opened Status

  /** One invocation of `cm`, with the working directory it runs in. */
  datatype Call =
    | Query(dir: string)                 // cm status --xml --fullpath
    | Undo(dir: string, path: string)    // cm undo <path>
    | Update(dir: string)                // cm update --last --override --forced

  /** What aborts the program: each is an `.expect` panic. */
  datatype Error =
    | NotLaunched(call: Call)   // the process could not be spawned or its output not captured
    | Undecodable(raw: string)  // the status output did not deserialise; carries the text

  /**
   * What the program can observe of `cm` at a given moment: what the coming
   * status queries will read, in order, and every invocation attempted so
   * far. An invocation's number is its index in `calls`.
   */
  datatype ClientState = ClientState(statuses: seq<Reading>, calls: seq<Call>)

  /**
   * The outcome of a status query, given whether it launched and the readings
   * still pending; a launched query reads the first of them. Whether the query
   * can be spawned is decided before anything is read.
   */
  function QueryResult(dir: string, launched: bool, pending: seq<Reading>): Result<StatusOutput, Error>
    requires launched ==> pending != []
  {
    if !launched then Failure(NotLaunched(Query(dir)))
    else match pending[0]
      case Success(s) => Success(s)
      case Failure(raw) => Failure(Undecodable(raw))
  }

  /**
   * Composes `Decode` with `QueryResult` for a client built from `docs`: when
   * its pending readings are `Readings(docs)[k..]` (the readings of
   * `docs[k..]`, by `ReadingsDrop`), the next launched query fails exactly
   * when the k-th printed document is malformed, carrying its text; otherwise
   * it yields one change per `<Change>` element, in document order.
   */
  lemma LaunchedQueryDecodes(dir: string, docs: seq<Document>, k: nat)
    requires k < |docs|
    ensures var r := QueryResult(dir, true, Readings(docs)[k..]);
      (r.Failure? <==> docs[k].Malformed?) &&
      (docs[k].Malformed? ==> r == Failure(Undecodable(docs[k].raw))) &&
      (docs[k].Xml? ==> r == Success(StatusOutput(Changes(DecodeAll(Entries(docs[k].root))))))
  {
    assert Readings(docs)[k..][0] == Decode(docs[k]);
  }

  /**
   * A scripted `cm`. `statuses` holds what the outputs of the coming status
   * queries decode to, in order; `calls` is every invocation attempted so
   * far; an invocation whose number (its index in `calls`) is in
   * `unlaunchable` cannot be spawned. Undo and update change nothing the
   * script can see: only the next scripted status reveals what they did.
   */
  class Client {
    var statuses: seq<Reading>
    var calls: seq<Call>
    const unlaunchable: set<nat>

    /** A client whose status queries will print `outputs`, one per query. */
    constructor (outputs: seq<Document>, unlaunchable: set<nat>)
      ensures statuses == Readings(outputs) && this.unlaunchable == unlaunchable
      ensures calls == []
    {
      statuses := Readings(outputs);
      this.unlaunchable := unlaunchable;
      calls := [];
    }

    /** The client's observable state. */
    function State(): ClientState
      reads this
    {
      ClientState(statuses, calls)
    }

    /** Whether the next invocation can be spawned. */
    predicate NextLaunches()
      reads this
    {
      |calls| !in unlaunchable
    }

    /** `get_status`: run `cm status` and deserialise what it printed. */
    method GetStatus(dir: string) returns (r: Result<StatusOutput, Error>)
      requires NextLaunches() ==> statuses != []
      modifies this
      ensures calls == old(calls) + [Query(dir)]
      ensures r == QueryResult(dir, old(NextLaunches()), old(statuses))
      ensures statuses == if old(NextLaunches()) then old(statuses)[1..] else old(statuses)
    {
      var launched := NextLaunches();
      r := QueryResult(dir, launched, statuses);
      if launched {
        statuses := statuses[1..];
      }
      calls := calls + [Query(dir)];
    }

    /** `undo`: run `cm undo <path>` for one change; only a failure to launch counts, never the exit code. */
    method Undo(dir: string, change: Change) returns (r: Result<(), Error>)
      modifies this
      ensures calls == old(calls) + [Call.Undo(dir, change.path)]
      ensures r == if old(NextLaunches()) then Success(()) else Failure(NotLaunched(Call.Undo(dir, change.path)))
      ensures statuses == old(statuses)
    {
      r := if NextLaunches() then Success(()) else Failure(NotLaunched(Call.Undo(dir, change.path)));
      calls := calls + [Call.Undo(dir, change.path)];
    }

    /** `update_latest`: run `cm update --last --override --forced`; only a failure to launch counts, never the exit code. */
    method UpdateLatest(dir: string) returns (r: Result<(), Error>)
      modifies this
      ensures calls == old(calls) + [Update(dir)]
      ensures r == if old(NextLaunches()) then Success(()) else Failure(NotLaunched(Update(dir)))
      ensures statuses == old(statuses)
    {
      r := if NextLaunches() then Success(()) else Failure(NotLaunched(Update(dir)));
      calls := calls + [Update(dir)];
    }
  }
}

=== FILE: convergence.dfy ===
/**
 * The convergence loop (`ensure_clean`, `cleanup`) and the orchestration
 * around it (`update`). Each operation is a method over the scripted client,
 * proved to leave it in the state a function of its old state describes:
 * the calls made are appended to the log and the status readings consumed
 * are gone. Neither the functions nor the methods' contracts involve the
 * `verbose` or `log` flags, so, as long as printing succeeds, the calls
 * made do not depend on them.
 */
module Convergence {
  import opened Wrappers
  import opened Status
  import opened CmClient

  /** How a run of `ensure_clean` ends. `OutOfScript`: no reading left for a query that launches before a clean status (the program would go on querying). */
  datatype Outcome = Clean | Failed(error: Error) | OutOfScript

  /** The client state after one `cleanup` and whether all its undos launched. */
  datatype Sweep = Sweep(after: ClientState, result: Result<(), Error>)

  /** The client state after one pass of the `ensure_clean` loop and how the pass ends the loop (None: go again). */
  datatype Pass = Pass(after: ClientState, stop: Option<Outcome>)

  /** The client state after a whole run and how it ended. */
  datatype Run = Run(after: ClientState, outcome: Outcome)

  /** Every call numbered n .. n + k - 1 can be spawned. */
  predicate LaunchesAll(unlaunchable: set<nat>, n: nat, k: nat) {
    forall j :: n <= j < n + k ==> j !in unlaunchable
  }

  /** One undo per change, carrying its path, in the order the changes came. */
  function UndoCalls(cs: seq<Change>, dir: string): seq<Call> {
    seq(|cs|, i requires 0 <= i < |cs| => Call.Undo(dir, cs[i].path))
  }

  /** `s` with `call` attempted. */
  function Attempt(s: ClientState, call: Call): ClientState {
    s.(calls := s.calls + [call])
  }

  /** `cleanup` from state s: undo each change in turn; stop at the first undo that cannot be launched. */
  function CleanupRun(s: ClientState, cs: seq<Change>, unlaunchable: set<nat>, dir: string): (sw: Sweep)
    decreases |cs|
    ensures sw.after.statuses == s.statuses
  {
    if cs == [] then Sweep(s, Success(()))
    else
      var call := Call.Undo(dir, cs[0].path);
      if |s.calls| in unlaunchable then Sweep(Attempt(s, call), Failure(NotLaunched(call)))
      else CleanupRun(Attempt(s, call), cs[1..], unlaunchable, dir)
  }

  /**
   * Every undo `cleanup` makes carries the path of its own change, in order,
   * none skipped or repeated; it gets through all of them exactly when every
   * one can be launched, and otherwise stops at the first that cannot.
   */
  lemma {:induction false} CleanupUndoesInOrder(s: ClientState, cs: seq<Change>, unlaunchable: set<nat>, dir: string)
    decreases |cs|
    ensures var sw := CleanupRun(s, cs, unlaunchable, dir);
      var n := |s.calls|;
      var j := |sw.after.calls| - n;
      0 <= j <= |cs| &&
      sw.after.calls == s.calls + UndoCalls(cs[..j], dir) &&
      (sw.result.Success? <==> LaunchesAll(unlaunchable, n, |cs|)) &&
      (sw.result.Success? ==> j == |cs|) &&
      (sw.result.Failure? ==>
        0 < j && LaunchesAll(unlaunchable, n, j - 1) && n + j - 1 in unlaunchable &&
        sw.result.error == NotLaunched(Call.Undo(dir, cs[j - 1].path)))
  {
    if cs == [] {
      assert s.calls + UndoCalls(cs[..0], dir) == s.calls;
    } else {
      var call := Call.Undo(dir, cs[0].path);
      var t := Attempt(s, call);
      if |s.calls| in unlaunchable {
        assert UndoCalls(cs[..1], dir) == [call];
      } else {
        CleanupUndoesInOrder(t, cs[1..], unlaunchable, dir);
        var sw := CleanupRun(t, cs[1..], unlaunchable, dir);
        var j := |sw.after.calls| - |t.calls|;
        assert cs[1..][..j] == cs[1..j + 1];
        assert UndoCalls(cs[..j + 1], dir) == [call] + UndoCalls(cs[1..][..j], dir);
        assert s.calls + [call] + UndoCalls(cs[1..][..j], dir) == s.calls + UndoCalls(cs[..j + 1], dir);
      }
    }
  }

  /** When every undo can be launched, `cleanup` undoes exactly the listed changes, in order. */
  lemma CleanupAllLaunched(s: ClientState, cs: seq<Change>, unlaunchable: set<nat>, dir: string)
    requires LaunchesAll(unlaunchable, |s.calls|, |cs|)
    ensures CleanupRun(s, cs, unlaunchable, dir) ==
      Sweep(ClientState(s.statuses, s.calls + UndoCalls(cs, dir)), Success(()))
  {
    CleanupUndoesInOrder(s, cs, unlaunchable, dir);
    var sw := CleanupRun(s, cs, unlaunchable, dir);
    assert cs[..|cs|] == cs;
    assert sw.after == ClientState(s.statuses, s.calls + UndoCalls(cs, dir));
    assert sw.result.value == ();
  }

  /**
   * One pass of the `ensure_clean` loop from state s: query the status; stop
   * on a failure or an empty change list; otherwise undo every change and go
   * again.
   */
  function EnsurePass(s: ClientState, unlaunchable: set<nat>, dir: string): (p: Pass)
    ensures |p.after.statuses| <= |s.statuses|
    ensures p.stop.None? ==> |p.after.statuses| < |s.statuses|
  {
    if |s.calls| in unlaunchable then Pass(Attempt(s, Query(dir)), Some(Failed(NotLaunched(Query(dir)))))
    else if s.statuses == [] then Pass(s, Some(OutOfScript))
    else
      var read := ClientState(s.statuses[1..], s.calls + [Query(dir)]);
      match s.statuses[0]
      case Failure(raw) => Pass(read, Some(Failed(Undecodable(raw))))
      case Success(status) =>
        var cs := status.changes.changes;
        if cs == [] then Pass(read, Some(Clean))
        else
          var sw := CleanupRun(read, cs, unlaunchable, dir);
          Pass(sw.after, if sw.result.Failure? then Some(Failed(sw.result.error)) else None)
  }

  /** `ensure_clean` from state s: passes until one stops the loop. */
  function EnsureRun(s: ClientState, unlaunchable: set<nat>, dir: string): (r: Run)
    decreases |s.statuses|
    ensures |r.after.statuses| <= |s.statuses|
    ensures r.outcome == Clean ==> |r.after.statuses| < |s.statuses|
  {
    var p := EnsurePass(s, unlaunchable, dir);
    match p.stop
    case Some(outcome) => Run(p.after, outcome)
    case None => EnsureRun(p.after, unlaunchable, dir)
  }

  /** A pass over a non-empty status whose undos all launch undoes it in full, in order, and goes again. */
  lemma PassAfterSweep(s: ClientState, unlaunchable: set<nat>, dir: string, cs: seq<Change>)
    requires s.statuses != [] && |s.calls| !in unlaunchable
    requires s.statuses[0] == Success(StatusOutput(Changes(cs))) && cs != []
    requires LaunchesAll(unlaunchable, |s.calls| + 1, |cs|)
    ensures EnsurePass(s, unlaunchable, dir) ==
      Pass(ClientState(s.statuses[1..], s.calls + [Query(dir)] + UndoCalls(cs, dir)), None)
  {
    CleanupAllLaunched(ClientState(s.statuses[1..], s.calls + [Query(dir)]), cs, unlaunchable, dir);
  }

  /** `update` from state s: converge, update to the latest revision, converge again; any failure ends the run. */
  function UpdateRun(s: ClientState, unlaunchable: set<nat>, dir: string): (r: Run)
    ensures |r.after.statuses| <= |s.statuses|
    ensures r.outcome == Clean ==> |r.after.statuses| + 2 <= |s.statuses|
  {
    var first := EnsureRun(s, unlaunchable, dir);
    if first.outcome != Clean then first
    else
      var updated := Attempt(first.after, Call.Update(dir));
      if |first.after.calls| in unlaunchable then Run(updated, Failed(NotLaunched(Call.Update(dir))))
      else EnsureRun(updated, unlaunchable, dir)
  }

  /** `cleanup`: one `cm undo` per change, in order; the first that cannot be launched aborts. */
  method Cleanup(cm: Client, changes: seq<Change>, dir: string, verbose: bool, log: bool)
    returns (r: Result<(), Error>)
    modifies cm
    ensures var sw := CleanupRun(old(cm.State()), changes, cm.unlaunchable, dir);
      cm.State() == sw.after && r == sw.result
  {
    for i := 0 to |changes|
      invariant CleanupRun(cm.State(), changes[i..], cm.unlaunchable, dir) ==
        CleanupRun(old(cm.State()), changes, cm.unlaunchable, dir)
    {
      assert changes[i..][1..] == changes[i + 1..];
      r := cm.Undo(dir, changes[i]);
      if r.Failure? {
        return;
      }
    }
    r := Success(());
  }

  /** One pass of the `ensure_clean` loop body: query the status and, if it lists changes, undo them all. */
  method QueryAndUndo(cm: Client, dir: string, verbose: bool, log: bool) returns (stop: Option<Outcome>)
    modifies cm
    ensures var p := EnsurePass(old(cm.State()), cm.unlaunchable, dir);
      cm.State() == p.after && stop == p.stop
  {
    if cm.statuses == [] && cm.NextLaunches() {
      // The real loop would go on querying; no reading is left to model it.
      return Some(OutOfScript);
    }
    var status := cm.GetStatus(dir);
    if status.Failure? {
      return Some(Failed(status.error));
    }
    var changes := status.value.changes.changes;
    if changes == [] {
      return Some(Clean);
    }
    var swept := Cleanup(cm, changes, dir, verbose, log);
    if swept.Failure? {
      return Some(Failed(swept.error));
    }
    return None;
  }

  /** `ensure_clean`: query until a status lists no change, undoing everything each listed. */
  method EnsureClean(cm: Client, dir: string, verbose: bool, log: bool) returns (outcome: Outcome)
    modifies cm
    ensures var r := EnsureRun(old(cm.State()), cm.unlaunchable, dir);
      cm.State() == r.after && outcome == r.outcome
  {
    while true
      invariant EnsureRun(cm.State(), cm.unlaunchable, dir) == EnsureRun(old(cm.State()), cm.unlaunchable, dir)
      decreases |cm.statuses|
    {
      var stop := QueryAndUndo(cm, dir, verbose, log);
      if stop.Some? {
        return stop.value;
      }
    }
  }

  /** `update`: converge, then `cm update`, then converge again. */
  method Update(cm: Client, dir: string, verbose: bool, log: bool) returns (outcome: Outcome)
    modifies cm
    ensures var r := UpdateRun(old(cm.State()), cm.unlaunchable, dir);
      cm.State() == r.after && outcome == r.outcome
  {
    outcome := EnsureClean(cm, dir, verbose, log);
    if outcome != Clean {
      return;
    }
    var updated := cm.UpdateLatest(dir);
    if updated.Failure? {
      return Failed(updated.error);
    }
    outcome := EnsureClean(cm, dir, verbose, log);
  }
}

=== FILE: properties.dfy ===
/**
 * What `ensure_clean` and `update` promise, stated over the client state a
 * run starts from: the log only grows and status readings are consumed in
 * order, the loop only ends clean right after a clean status, it undoes every
 * reported change in order, a failure ends the run at the failing call, and
 * `update` runs only from a converged workspace.
 */
module ConvergenceProperties {
  import opened Wrappers
  import opened Status
  import opened CmClient
  import opened Convergence

  /** The reading of a status that lists the changes `cs`. */
  function Listing(cs: seq<Change>): Reading {
    Success(StatusOutput(Changes(cs)))
  }

  /** The calls of K non-empty rounds and the final clean query: query, undo each change, ..., query. */
  function RoundCalls(snaps: seq<seq<Change>>, dir: string): seq<Call> {
    if snaps == [] then [Query(dir)]
    else [Query(dir)] + UndoCalls(snaps[0], dir) + RoundCalls(snaps[1..], dir)
  }

  /** The number of changes the snapshots list altogether. */
  function Total(snaps: seq<seq<Change>>): nat {
    if snaps == [] then 0 else |snaps[0]| + Total(snaps[1..])
  }

  /** The paths of the changes, in order. */
  function Paths(cs: seq<Change>): seq<string> {
    if cs == [] then [] else [cs[0].path] + Paths(cs[1..])
  }

  /** The paths of all snapshots, snapshot after snapshot. */
  function AllPaths(snaps: seq<seq<Change>>): seq<string> {
    if snaps == [] then [] else Paths(snaps[0]) + AllPaths(snaps[1..])
  }

  /** How many status queries a call sequence holds. */
  function Queries(calls: seq<Call>): nat {
    if calls == [] then 0 else (if calls[0].Query? then 1 else 0) + Queries(calls[1..])
  }

  /** The paths passed to `cm undo`, in call order. */
  function UndonePaths(calls: seq<Call>): seq<string> {
    if calls == [] then []
    else (if calls[0].Undo? then [calls[0].path] else []) + UndonePaths(calls[1..])
  }

  /** `t` follows from `s`: the log has only grown, and the readings left are a suffix of those there were. */
  predicate Follows(s: ClientState, t: ClientState) {
    |s.calls| <= |t.calls| && t.calls[..|s.calls|] == s.calls &&
    |t.statuses| <= |s.statuses| && t.statuses == s.statuses[|s.statuses| - |t.statuses|..]
  }

  /** Every call from number `from` on is a status query or an undo, run in `dir`. */
  predicate StaysIn(calls: seq<Call>, from: nat, dir: string) {
    forall i :: from <= i < |calls| ==> calls[i].dir == dir && !calls[i].Update?
  }

  // ---------------------------------------------------------------------------
  // One pass

  /** A pass appends to the log and consumes at most the first reading. */
  lemma PassFollows(s: ClientState, unlaunchable: set<nat>, dir: string)
    ensures var p := EnsurePass(s, unlaunchable, dir);
      Follows(s, p.after) && |s.statuses| - |p.after.statuses| <= 1
  {
    var p := EnsurePass(s, unlaunchable, dir);
    if s.statuses != [] && |s.calls| !in unlaunchable && s.statuses[0].Success? {
      var read := ClientState(s.statuses[1..], s.calls + [Query(dir)]);
      var cs := s.statuses[0].value.changes.changes;
      if cs != [] {
        CleanupUndoesInOrder(read, cs, unlaunchable, dir);
        assert p.after.calls == s.calls + ([Query(dir)] + UndoCalls(cs[..|p.after.calls| - |read.calls|], dir));
      }
    }
  }

  /** Every call a pass makes is a status query or an undo, run in the workspace's own directory. */
  lemma PassStaysInDir(s: ClientState, unlaunchable: set<nat>, dir: string)
    ensures var p := EnsurePass(s, unlaunchable, dir);
      StaysIn(p.after.calls, |s.calls|, dir)
  {
    var p := EnsurePass(s, unlaunchable, dir);
    if s.statuses != [] && |s.calls| !in unlaunchable && s.statuses[0].Success? {
      var read := ClientState(s.statuses[1..], s.calls + [Query(dir)]);
      var cs := s.statuses[0].value.changes.changes;
      if cs != [] {
        CleanupUndoesInOrder(read, cs, unlaunchable, dir);
        var j := |p.after.calls| - |read.calls|;
        assert forall i :: |read.calls| <= i < |p.after.calls| ==>
          p.after.calls[i] == Call.Undo(dir, cs[i - |read.calls|].path);
      }
    }
  }

  /**
   * A pass that stops on a call that cannot be launched stops right after
   * that call, the first unlaunchable one; any other pass launched every
   * call it made.
   */
  lemma PassLaunches(s: ClientState, unlaunchable: set<nat>, dir: string)
    ensures var p := EnsurePass(s, unlaunchable, dir);
      var m := |p.after.calls|;
      |s.calls| <= m &&
      if p.stop.Some? && p.stop.value.Failed? && p.stop.value.error.NotLaunched? then
        |s.calls| < m && p.stop.value.error.call == p.after.calls[m - 1] &&
        m - 1 in unlaunchable && LaunchesAll(unlaunchable, |s.calls|, m - 1 - |s.calls|)
      else
        LaunchesAll(unlaunchable, |s.calls|, m - |s.calls|)
  {
    var p := EnsurePass(s, unlaunchable, dir);
    if s.statuses != [] && |s.calls| !in unlaunchable && s.statuses[0].Success? {
      var read := ClientState(s.statuses[1..], s.calls + [Query(dir)]);
      var cs := s.statuses[0].value.changes.changes;
      if cs != [] {
        CleanupUndoesInOrder(read, cs, unlaunchable, dir);
      }
    }
  }

  // ---------------------------------------------------------------------------
  // ensure_clean

  /** On a clean workspace `ensure_clean` makes one status query, no undo, and ends clean. */
  lemma CleanWorkspaceOneQuery(s: ClientState, unlaunchable: set<nat>, dir: string)
    requires s.statuses != [] && |s.calls| !in unlaunchable && s.statuses[0] == Listing([])
    ensures EnsureRun(s, unlaunchable, dir) == Run(ClientState(s.statuses[1..], s.calls + [Query(dir)]), Clean)
  {
  }

  /**
   * A status query that cannot be spawned ends the run right there, whatever
   * readings remain, none included: the spawn is tried before anything is read.
   */
  lemma UnlaunchableQueryEndsRun(s: ClientState, unlaunchable: set<nat>, dir: string)
    requires |s.calls| in unlaunchable
    ensures EnsureRun(s, unlaunchable, dir) ==
      Run(ClientState(s.statuses, s.calls + [Query(dir)]), Failed(NotLaunched(Query(dir))))
  {
  }

  /** A run appends to the log and consumes readings from the front, each at most once. */
  lemma {:induction false} RunFollows(s: ClientState, unlaunchable: set<nat>, dir: string)
    decreases |s.statuses|
    ensures Follows(s, EnsureRun(s, unlaunchable, dir).after)
  {
    var p := EnsurePass(s, unlaunchable, dir);
    PassFollows(s, unlaunchable, dir);
    if p.stop.None? {
      RunFollows(p.after, unlaunchable, dir);
      var t := EnsureRun(p.after, unlaunchable, dir).after;
      assert t.calls[..|s.calls|] == t.calls[..|p.after.calls|][..|s.calls|];
    }
  }

  /**
   * A pass that ends the loop clean, or on an undecodable status, does so
   * right after its status query, having consumed exactly that reading; a
   * pass that goes again consumed exactly one reading too.
   */
  lemma PassReads(s: ClientState, unlaunchable: set<nat>, dir: string)
    ensures var p := EnsurePass(s, unlaunchable, dir);
      (p.stop == Some(Clean) ==>
        s.statuses != [] && |s.calls| !in unlaunchable && s.statuses[0] == Listing([]) &&
        p.after == ClientState(s.statuses[1..], s.calls + [Query(dir)])) &&
      (p.stop.Some? && p.stop.value.Failed? && p.stop.value.error.Undecodable? ==>
        s.statuses != [] && |s.calls| !in unlaunchable && s.statuses[0] == Failure(p.stop.value.error.raw) &&
        p.after == ClientState(s.statuses[1..], s.calls + [Query(dir)])) &&
      (p.stop.None? ==> s.statuses != [] && p.after.statuses == s.statuses[1..])
  {
    if s.statuses != [] && |s.calls| !in unlaunchable && s.statuses[0].Success? {
      var read := ClientState(s.statuses[1..], s.calls + [Query(dir)]);
      var cs := s.statuses[0].value.changes.changes;
      if cs != [] {
        CleanupUndoesInOrder(read, cs, unlaunchable, dir);
      } else {
        assert s.statuses[0].value == StatusOutput(Changes([]));
      }
    }
  }

  /**
   * The fixpoint holds on exit: a run ends clean only right after a status
   * query that launched and read a status listing no change, the last
   * reading it consumed.
   */
  lemma {:induction false} CleanOnlyAfterEmptyStatus(s: ClientState, unlaunchable: set<nat>, dir: string)
    requires EnsureRun(s, unlaunchable, dir).outcome == Clean
    decreases |s.statuses|
    ensures var r := EnsureRun(s, unlaunchable, dir);
      var k := |s.statuses| - |r.after.statuses|;
      var m := |r.after.calls|;
      0 < k && s.statuses[k - 1] == Listing([]) &&
      0 < m && r.after.calls[m - 1] == Query(dir) && m - 1 !in unlaunchable
  {
    var p := EnsurePass(s, unlaunchable, dir);
    PassReads(s, unlaunchable, dir);
    if p.stop.None? {
      CleanOnlyAfterEmptyStatus(p.after, unlaunchable, dir);
      var r := EnsureRun(p.after, unlaunchable, dir);
      var k := |p.after.statuses| - |r.after.statuses|;
      assert s.statuses[1..][k - 1] == s.statuses[k];
    }
  }

  /** An undecodable status ends the run at that query, which launched and is the last call made; the failure carries the text it printed. */
  lemma {:induction false} UndecodableStatusEndsRun(s: ClientState, unlaunchable: set<nat>, dir: string, raw: string)
    requires EnsureRun(s, unlaunchable, dir).outcome == Failed(Undecodable(raw))
    decreases |s.statuses|
    ensures var r := EnsureRun(s, unlaunchable, dir);
      var k := |s.statuses| - |r.after.statuses|;
      var m := |r.after.calls|;
      0 < k && s.statuses[k - 1] == Failure(raw) &&
      0 < m && r.after.calls[m - 1] == Query(dir) && m - 1 !in unlaunchable
  {
    var p := EnsurePass(s, unlaunchable, dir);
    PassReads(s, unlaunchable, dir);
    if p.stop.None? {
      UndecodableStatusEndsRun(p.after, unlaunchable, dir, raw);
      var r := EnsureRun(p.after, unlaunchable, dir);
      var k := |p.after.statuses| - |r.after.statuses|;
      assert s.statuses[1..][k - 1] == s.statuses[k];
    }
  }

  /**
   * A failure to launch ends the run at the failing call: that call is the
   * last one made and the first that could not be launched. Every other run
   * launched all the calls it made.
   */
  lemma {:induction false} LaunchFailureEndsRun(s: ClientState, unlaunchable: set<nat>, dir: string)
    decreases |s.statuses|
    ensures var r := EnsureRun(s, unlaunchable, dir);
      var m := |r.after.calls|;
      |s.calls| <= m &&
      if r.outcome.Failed? && r.outcome.error.NotLaunched? then
        |s.calls| < m && r.outcome.error.call == r.after.calls[m - 1] &&
        m - 1 in unlaunchable && LaunchesAll(unlaunchable, |s.calls|, m - 1 - |s.calls|)
      else
        LaunchesAll(unlaunchable, |s.calls|, m - |s.calls|)
  {
    var p := EnsurePass(s, unlaunchable, dir);
    PassLaunches(s, unlaunchable, dir);
    if p.stop.None? {
      LaunchFailureEndsRun(p.after, unlaunchable, dir);
    }
  }

  /**
   * K non-empty statuses followed by an empty one, every call launching:
   * the run is query, one undo per listed change in the order listed, ...,
   * a final query, and it ends clean having consumed K + 1 readings.
   */
  lemma {:induction false} ConvergesAfterRounds(s: ClientState, snaps: seq<seq<Change>>, unlaunchable: set<nat>, dir: string)
    requires |snaps| < |s.statuses|
    requires forall i :: 0 <= i < |snaps| ==> snaps[i] != [] && s.statuses[i] == Listing(snaps[i])
    requires s.statuses[|snaps|] == Listing([])
    requires LaunchesAll(unlaunchable, |s.calls|, |RoundCalls(snaps, dir)|)
    decreases |snaps|
    ensures EnsureRun(s, unlaunchable, dir) ==
      Run(ClientState(s.statuses[|snaps| + 1..], s.calls + RoundCalls(snaps, dir)), Clean)
  {
    if snaps != [] {
      var cs := snaps[0];
      var rest := RoundCalls(snaps[1..], dir);
      assert RoundCalls(snaps, dir) == [Query(dir)] + UndoCalls(cs, dir) + rest;
      assert s.statuses[0] == Listing(cs);
      PassAfterSweep(s, unlaunchable, dir, cs);
      var t := ClientState(s.statuses[1..], s.calls + [Query(dir)] + UndoCalls(cs, dir));
      forall i | 0 <= i < |snaps[1..]|
        ensures snaps[1..][i] != [] && t.statuses[i] == Listing(snaps[1..][i])
      {
        assert snaps[1..][i] == snaps[i + 1];
      }
      ConvergesAfterRounds(t, snaps[1..], unlaunchable, dir);
      assert t.statuses[|snaps[1..]| + 1..] == s.statuses[|snaps| + 1..];
      assert t.calls + rest == s.calls + RoundCalls(snaps, dir);
    }
  }

  lemma {:induction false} QueriesAppend(a: seq<Call>, b: seq<Call>)
    ensures Queries(a + b) == Queries(a) + Queries(b)
  {
    if a == [] {
      assert a + b == b;
    } else {
      QueriesAppend(a[1..], b);
      assert (a + b)[1..] == a[1..] + b;
    }
  }

  lemma {:induction false} UndonePathsAppend(a: seq<Call>, b: seq<Call>)
    ensures UndonePaths(a + b) == UndonePaths(a) + UndonePaths(b)
  {
    if a == [] {
      assert a + b == b;
    } else {
      UndonePathsAppend(a[1..], b);
      assert (a + b)[1..] == a[1..] + b;
      var head := if a[0].Undo? then [a[0].path] else [];
      assert UndonePaths(a + b) == head + UndonePaths(a[1..] + b);
      assert head + (UndonePaths(a[1..]) + UndonePaths(b)) == (head + UndonePaths(a[1..])) + UndonePaths(b);
    }
  }

  lemma {:induction false} UndoCallsCounts(cs: seq<Change>, dir: string)
    ensures Queries(UndoCalls(cs, dir)) == 0
    ensures UndonePaths(UndoCalls(cs, dir)) == Paths(cs)
  {
    if cs != [] {
      UndoCallsCounts(cs[1..], dir);
      assert UndoCalls(cs, dir)[1..] == UndoCalls(cs[1..], dir);
    }
  }

  lemma {:induction false} PathsCount(snaps: seq<seq<Change>>)
    ensures |AllPaths(snaps)| == Total(snaps)
  {
    if snaps != [] {
      PathsCount(snaps[1..]);
      PathsLength(snaps[0]);
    }
  }

  lemma {:induction false} PathsLength(cs: seq<Change>)
    ensures |Paths(cs)| == |cs|
  {
    if cs != [] {
      PathsLength(cs[1..]);
    }
  }

  /**
   * The run of K rounds makes K + 1 status queries and as many undos as the
   * snapshots list changes: exactly their paths, snapshot by snapshot, in
   * order, none dropped or merged.
   */
  lemma {:induction false} RoundCallsCount(snaps: seq<seq<Change>>, dir: string)
    decreases |snaps|
    ensures Queries(RoundCalls(snaps, dir)) == |snaps| + 1
    ensures UndonePaths(RoundCalls(snaps, dir)) == AllPaths(snaps)
    ensures |UndonePaths(RoundCalls(snaps, dir))| == Total(snaps)
    ensures |RoundCalls(snaps, dir)| == |snaps| + 1 + Total(snaps)
  {
    PathsCount(snaps);
    if snaps != [] {
      RoundCallsCount(snaps[1..], dir);
      UndoCallsCounts(snaps[0], dir);
      var u := UndoCalls(snaps[0], dir);
      var rest := RoundCalls(snaps[1..], dir);
      QueriesAppend([Query(dir)], u);
      QueriesAppend([Query(dir)] + u, rest);
      UndonePathsAppend([Query(dir)], u);
      UndonePathsAppend([Query(dir)] + u, rest);
      assert Queries([Query(dir)]) == 1;
      assert UndonePaths([Query(dir)]) == [];
    }
  }

  /** Every call `ensure_clean` makes is a status query or an undo, run in the workspace's own directory. */
  lemma {:induction false} EnsureCallsStayInDir(s: ClientState, unlaunchable: set<nat>, dir: string)
    decreases |s.statuses|
    ensures var r := EnsureRun(s, unlaunchable, dir);
      StaysIn(r.after.calls, |s.calls|, dir)
  {
    var p := EnsurePass(s, unlaunchable, dir);
    PassStaysInDir(s, unlaunchable, dir);
    PassFollows(s, unlaunchable, dir);
    if p.stop.None? {
      EnsureCallsStayInDir(p.after, unlaunchable, dir);
      RunFollows(p.after, unlaunchable, dir);
      var t := EnsureRun(p.after, unlaunchable, dir).after;
      forall i | |s.calls| <= i < |t.calls|
        ensures t.calls[i].dir == dir && !t.calls[i].Update?
      {
        if i < |p.after.calls| {
          assert t.calls[i] == t.calls[..|p.after.calls|][i];
        }
      }
    }
  }

  /** One dirty file, then a clean status: the file is undone once, by its path, between two status queries. */
  lemma OneDirtyFile(dirty: Document, clean: Document, c: Change, dir: string)
    requires Decode(dirty) == Listing([c]) && Decode(clean) == Listing([])
    ensures EnsureRun(ClientState(Readings([dirty, clean]), []), {}, dir) ==
      Run(ClientState([], [Query(dir), Call.Undo(dir, c.path), Query(dir)]), Clean)
  {
    var s := ClientState(Readings([dirty, clean]), []);
    assert s.statuses == [Listing([c]), Listing([])];
    ConvergesAfterRounds(s, [[c]], {}, dir);
    assert UndoCalls([c], dir) == [Call.Undo(dir, c.path)];
  }

  // ---------------------------------------------------------------------------
  // update

  /**
   * The calls of `update`: those of its first `ensure_clean` run and, only
   * when that run ended clean, one `cm update` followed by calls none of
   * which is another update.
   */
  lemma UpdateRunCalls(s: ClientState, unlaunchable: set<nat>, dir: string)
    ensures var first := EnsureRun(s, unlaunchable, dir);
      var r := UpdateRun(s, unlaunchable, dir);
      var m := |first.after.calls|;
      (first.outcome != Clean ==> r == first) &&
      (first.outcome == Clean ==>
        m < |r.after.calls| && r.after.calls[..m + 1] == first.after.calls + [Call.Update(dir)] &&
        StaysIn(r.after.calls, m + 1, dir))
  {
    var first := EnsureRun(s, unlaunchable, dir);
    var m := |first.after.calls|;
    if first.outcome == Clean && m !in unlaunchable {
      var updated := Attempt(first.after, Call.Update(dir));
      RunFollows(updated, unlaunchable, dir);
      EnsureCallsStayInDir(updated, unlaunchable, dir);
    }
  }

  /**
   * `update` starts with a full `ensure_clean` run; `cm update` is called
   * once, right after it, exactly when that run ended clean (so right after
   * a status query that listed nothing), and never anywhere else.
   */
  lemma UpdateAfterFixpoint(s: ClientState, unlaunchable: set<nat>, dir: string)
    ensures var first := EnsureRun(s, unlaunchable, dir);
      var r := UpdateRun(s, unlaunchable, dir);
      var m := |first.after.calls|;
      |s.calls| <= m <= |r.after.calls| && r.after.calls[..m] == first.after.calls &&
      (Call.Update(dir) in r.after.calls[|s.calls|..] <==> first.outcome == Clean) &&
      (forall i :: |s.calls| <= i < |r.after.calls| && r.after.calls[i].Update? ==> i == m && first.outcome == Clean)
    ensures var first := EnsureRun(s, unlaunchable, dir);
      var m := |first.after.calls|;
      first.outcome == Clean ==> 0 < m && first.after.calls[m - 1] == Query(dir)
  {
    var first := EnsureRun(s, unlaunchable, dir);
    var r := UpdateRun(s, unlaunchable, dir);
    var m := |first.after.calls|;
    RunFollows(s, unlaunchable, dir);
    EnsureCallsStayInDir(s, unlaunchable, dir);
    UpdateRunCalls(s, unlaunchable, dir);
    var tail := r.after.calls[|s.calls|..];
    if first.outcome == Clean {
      CleanOnlyAfterEmptyStatus(s, unlaunchable, dir);
      assert r.after.calls[..m] == r.after.calls[..m + 1][..m];
      assert r.after.calls[m] == r.after.calls[..m + 1][m];
      assert tail[m - |s.calls|] == Call.Update(dir);
    } else {
      forall c | c in tail
        ensures !c.Update?
      {
        var i :| 0 <= i < |tail| && tail[i] == c;
        assert c == r.after.calls[|s.calls| + i];
      }
    }
  }

  /**
   * A clean workspace, then M changes after the update, then clean: query,
   * update, query, M undos, query; three queries, one update, M undos.
   */
  lemma UpdateScenario(before: Document, after: Document, settled: Document, cs: seq<Change>, dir: string)
    requires Decode(before) == Listing([]) && Decode(after) == Listing(cs) && cs != [] && Decode(settled) == Listing([])
    ensures UpdateRun(ClientState(Readings([before, after, settled]), []), {}, dir) ==
      Run(ClientState([], [Query(dir), Call.Update(dir), Query(dir)] + UndoCalls(cs, dir) + [Query(dir)]), Clean)
  {
    assert Readings([before, after, settled]) == [Listing([]), Listing(cs), Listing([])];
    UpdateOverListings(cs, dir);
  }

  /** The run of `update` over the readings clean, `cs`, clean, every call launching. */
  lemma UpdateOverListings(cs: seq<Change>, dir: string)
    requires cs != []
    ensures UpdateRun(ClientState([Listing([]), Listing(cs), Listing([])], []), {}, dir) ==
      Run(ClientState([], [Query(dir), Call.Update(dir), Query(dir)] + UndoCalls(cs, dir) + [Query(dir)]), Clean)
  {
    var s := ClientState([Listing([]), Listing(cs), Listing([])], []);
    CleanWorkspaceOneQuery(s, {}, dir);
    var t := ClientState([Listing(cs), Listing([])], [Query(dir), Call.Update(dir)]);
    assert RoundCalls([cs], dir) == [Query(dir)] + UndoCalls(cs, dir) + [Query(dir)];
    ConvergesAfterRounds(t, [cs], {}, dir);
    assert Attempt(EnsureRun(s, {}, dir).after, Call.Update(dir)) == t;
  }
}

=== FILE: status.dfy ===
/**
 * The output of `cm status --xml --fullpath`: the document as it arrives, the
 * records it decodes into, and the one-line description of a change shown in
 * verbose mode.
 */
module Status {
  import opened Wrappers

  /** One pending change: the file's full path and its printable size (never parsed). */
  datatype Change = Change(path: string, size: string)

  /** The `<Changes>` element: its `<Change>` children, in document order. */
  datatype Changes = Changes(changes: seq<Change>)

  /** The root of the status document. */
  datatype StatusOutput = StatusOutput(changes: Changes)

  /** `Change::to_string`: "File `<path>` of size: <size>". */
  function Describe(c: Change): string {
    "File `" + c.path + "` of size: " + c.size
  }

  /** Where each part of a change sits in its description. */
  lemma DescribeLayout(c: Change)
    ensures |Describe(c)| == |c.path| + |c.size| + 17
    ensures Describe(c)[..6] == "File `"
    ensures Describe(c)[6..6 + |c.path|] == c.path
    ensures Describe(c)[6 + |c.path|..17 + |c.path|] == "` of size: "
    ensures Describe(c)[17 + |c.path|..] == c.size
  {
    var d := Describe(c);
    assert d == "File `" + c.path + "` of size: " + c.size;
  }

  /**
   * The description loses nothing: as long as paths hold no backtick, two
   * changes with the same description are the same change.
   */
  lemma DescribeInjective(a: Change, b: Change)
    requires '`' !in a.path && '`' !in b.path
    requires Describe(a) == Describe(b)
    ensures a == b
  {
    DescribeLayout(a);
    DescribeLayout(b);
    PathEndsAtFirstBacktick(a);
    PathEndsAtFirstBacktick(b);
    assert |a.path| == |b.path|;
  }

  /** In a description, the path is followed by the first backtick after the opening one. */
  lemma PathEndsAtFirstBacktick(c: Change)
    requires '`' !in c.path
    ensures Describe(c)[6 + |c.path|] == '`'
    ensures forall i :: 6 <= i < 6 + |c.path| ==> Describe(c)[i] != '`'
  {
    DescribeLayout(c);
    forall i | 6 <= i < 6 + |c.path|
      ensures Describe(c)[i] != '`'
    {
      assert Describe(c)[i] == c.path[i - 6];
    }
  }

  // The document as the XML reader sees it. Every field of the decoded records
  // is declared `default`, so each element below may be absent.

  /** A `<Change>` element with optional `<Path>` and `<PrintableSize>` children. */
  datatype ChangeElement = ChangeElement(path: Option<string>, printableSize: Option<string>)

  /** A `<Changes>` element; `change` is None when it has no `<Change>` child. */
  datatype ChangesElement = ChangesElement(change: Option<seq<ChangeElement>>)

  /** A `<StatusOutput>` root; `changes` is None when it has no `<Changes>` child. */
  datatype StatusElement = StatusElement(changes: Option<ChangesElement>)

  /** What `cm status` printed: a document of the expected shape, or anything else, kept verbatim. */
  datatype Document = Xml(root: StatusElement) | Malformed(raw: string)

  /** The `<Change>` elements of a root, in document order; absent levels contribute none. */
  function Entries(root: StatusElement): seq<ChangeElement> {
    match root.changes
    case None => []
    case Some(ce) => ce.change.GetOr([])
  }

  /** One `<Change>` element as a record; a missing child reads as the empty string. */
  function DecodeChange(e: ChangeElement): Change {
    Change(e.path.GetOr(""), e.printableSize.GetOr(""))
  }

  /**
   * Deserialising the captured standard output. A malformed document fails
   * with its own text; a well-formed one always decodes, into one change per
   * `<Change>` element, in document order, absent fields read as "".
   */
  function Decode(doc: Document): (r: Result<StatusOutput, string>)
    ensures r.Failure? <==> doc.Malformed?
    ensures r.Failure? ==> r.error == doc.raw
  {
    match doc
    case Malformed(raw) => Failure(raw)
    case Xml(root) =>
      Success(StatusOutput(Changes(DecodeAll(Entries(root)))))
  }

  /** The `<Change>` elements decoded one by one, in order. */
  function DecodeAll(es: seq<ChangeElement>): (cs: seq<Change>)
    ensures |cs| == |es|
  {
    if es == [] then [] else [DecodeChange(es[0])] + DecodeAll(es[1..])
  }

  /** Decoding keeps every `<Change>` element, in document order, reading an absent field as "". */
  lemma DecodeKeepsEntries(root: StatusElement)
    ensures Decode(Xml(root)).Success?
    ensures var cs := Decode(Xml(root)).value.changes.changes;
      var es := Entries(root);
      |cs| == |es| &&
      forall i :: 0 <= i < |es| ==>
        cs[i].path == es[i].path.GetOr("") && cs[i].size == es[i].printableSize.GetOr("")
  {
    DecodeAllAt(Entries(root));
  }

  lemma {:induction false} DecodeAllAt(es: seq<ChangeElement>)
    ensures forall i :: 0 <= i < |es| ==> DecodeAll(es)[i] == DecodeChange(es[i])
  {
    if es != [] {
      DecodeAllAt(es[1..]);
      assert forall i :: 1 <= i < |es| ==> DecodeAll(es)[i] == DecodeAll(es[1..])[i - 1];
    }
  }

  /** What one status query's output decodes to: the status, or the raw text that did not decode. */
  type Reading = Result<StatusOutput, string>

  /**
   * The readings of successive status outputs, in order: one per output, a
   * failure carrying the text exactly where the output is malformed, and a
   * status listing one change per `<Change>` element everywhere else.
   */
  function Readings(docs: seq<Document>): (rs: seq<Reading>)
    ensures |rs| == |docs|
    ensures forall i :: 0 <= i < |docs| ==> (rs[i].Failure? <==> docs[i].Malformed?)
    ensures forall i :: 0 <= i < |docs| && docs[i].Malformed? ==> rs[i] == Failure(docs[i].raw)
    ensures forall i :: 0 <= i < |docs| && docs[i].Xml? ==>
      rs[i].Success? && |rs[i].value.changes.changes| == |Entries(docs[i].root)|
  {
    seq(|docs|, i requires 0 <= i < |docs| => Decode(docs[i]))
  }

  /**
   * Dropping the first k readings leaves the readings of the remaining
   * outputs: what is still pending after k queries read their outputs.
   */
  lemma ReadingsDrop(docs: seq<Document>, k: nat)
    requires k <= |docs|
    ensures Readings(docs)[k..] == Readings(docs[k..])
  {
  }

  /** A document with no `<Changes>`, or with no `<Change>` inside it, reports a clean workspace. */
  lemma AbsentChangesDecodeEmpty(root: StatusElement)
    requires root.changes.None? || root.changes.value.change.None?
    ensures Decode(Xml(root)) == Success(StatusOutput(Changes([])))
  {
    assert Entries(root) == [];
  }
}

=== FILE: wrappers.dfy ===
/** Option and Result, the two failure-carrying shapes the rest of the model uses. */
module Wrappers {

  datatype Option<+T> = None | Some(value: T) {

    /** The carried value, or `default` when there is none (serde's `default` on an absent field). */
    function GetOr(default: T): T {
      match this
      case Some(v) => v
      case None => default
    }
  }

  datatype Result<+R, +E> = Success(value: R) | Failure(error: E)
}
